=== FILE: README.md ===
# tagged-routes, modelled in Dafny

A model of the bidirectional router that `createRoutes(table, catchAllKind)`
builds. The table maps route kinds to path patterns. The router has two halves:

- `getRouteForURL` splits a URL into a path and a query. It tries the compiled
  matchers in table order and turns the first match into a route value of
  that kind. If nothing matches, it returns the catch-all kind carrying the
  raw path.
- `getURLForRoute` dispatches on the route's kind:
  - For a table kind it merges the wildcard splat into slot `0`. When
    validation is on, it checks the required keys. It then runs the path
    generator and appends `?query` only when the serialized query is non-empty.
  - For the catch-all kind it writes out the `routePath` plus the query suffix.

The foreign libraries are the function fields of `Collaborators.Lib`, so every
property holds for every implementation of them:

- path-to-regexp's key list, its matcher (`exec`) and its path generator;
- Node's `querystring` parse and stringify;
- `encodeURIComponent`.

The `NODE_ENV !== 'production'` test is the explicit `validate` parameter.
`invariant` failures, and anything else the encoder throws, are `Failure`
values of `Encoder.RouteError`.

Modules, in dependency order:

- `Wrappers`: `Option` for JavaScript's `undefined`, plus `Result` and `Outcome` for throws.
- `Search`: the first index of a sequence whose element satisfies a predicate. This is the shape shared by the decoder's `for` loop and the encoder's `forEach` of invariants.
- `Url`: JavaScript `split`, the decoder's path/query split, and the `?query` suffix rule.
- `Collaborators`: key descriptors, parameter and query objects, and the `Lib` of foreign functions.
- `Routes`: the table, its compilation, the router, and the tagged union of route values.
- `Decoder`: `getRouteForURL`.
- `Encoder`: `getURLForRoute` and its two kinds of handler.
- `RoundTrip`: decoding what was encoded gives back the route.
- `Examples`: the scenarios of the repository's test suite.

Route values are `Route(kind, Data)`. Each payload property (`routeParams`,
`routeSplat`, `queryParams`, `routePath`) is an `Option`, because a JavaScript
payload may leave any of them out. A parameter value is itself an
`Option<string>`. An optional group that takes no part in a match is stored by
the decoder as `undefined`: the key is still present, with an undefined value.

The model follows index.js in these details:

- The splat is merged only when it is truthy (`routeSplat ? … : …`), not
  whenever it is defined. An empty splat is therefore never merged.
- The query is the text between the first and the second `?`
  (`url.split('?')[1]`). Anything after a second `?` is dropped.
- `createRoutes` takes no `encode` option.
- The decoder's catch-all route also carries an empty `routeParams`.
- Decoding puts every key into `routeParams`, the wildcard key included.
- Parameter objects are plain JavaScript objects. The model keeps their own
  properties, and `in` also finds the names inherited from `Object.prototype`
  (`constructor`, `toString`, `__proto__`, ...). Assigning a string or
  `undefined` to `__proto__` creates no property, so the decoder never stores
  a key of that name, and `Object.assign` does not copy one.
- A missing `routeParams` object meets the required-key check as
  `key.name in undefined`. That is a `TypeError`, modelled as
  `RouteParamsNotObject`, not as the invariant's message.

## Model

| member | source | states |
|---|---|---|
| `Search.First` | index.js:79-82 | the index returned is the first one whose element satisfies the test; none is returned only when no element satisfies it |
| `Url.Split` | index.js:75 | `split('?')` always yields at least one piece and no piece contains the separator |
| `Url.JoinSplit` | index.js:75 | splitting loses nothing: joining the pieces with the separator gives back the input |
| `Url.SplitUrl` | index.js:75-77 | the path is the text before the first `?`; the query is the text between the first `?` and the second `?` or the end; with no `?`, the path is the whole URL and the query is empty |
| `Url.SplitUrlWithQuery` | index.js:49 | splitting a URL built by the suffix rule gives back exactly the path and query that went in, when neither contains `?` |
| `Url.WithQueryShape` | index.js:69 | an empty serialized query gives the bare path, so there is never a trailing `?`; a non-empty one puts exactly `?` + query after the path |
| `Routes.Compile` | index.js:16-22 | one compiled entry per table entry, in table order, with the entry's own kind, pattern and keys |
| `Routes.CreateRoutes` | index.js:9-22 | the router keeps the table's kinds in declaration order, each with its pattern's keys, and one entry per kind |
| `Routes.Kinds` | index.js:10-11 | the union's kinds are the table kinds in order followed by the catch-all kind |
| `Routes.KindsAreTheUnion` | index.js:11 | a kind belongs to the router exactly when it is a table kind or the catch-all kind |
| `Routes.MatcherFor` | index.js:21-23 | the handler for a table kind uses a compiled entry of that very kind |
| `Routes.MatcherForIndex` | index.js:21-23 | with one entry per kind, the handler for kind `i` closes over entry `i` |
| `Decoder.ZipParams` | index.js:86-94 | every key name except `__proto__` is present in `routeParams`, and each holds the capture of the last key with that name (`undefined` past the captures); assigning `__proto__` creates no property |
| `Decoder.SplatOf` | index.js:85-91 | `routeSplat` is the capture of the last `.*` key, and `undefined` when the pattern has no `.*` key |
| `Decoder.GetRouteForURL` | index.js:74-104 | decoding never fails: the kind is always one of the router's kinds, `routeParams` is always an object, and `queryParams` is always the parsed query part of the URL |
| `Decoder.DecodeFirstMatch` | index.js:79-96 | when matcher `i` accepts the path and no earlier one does, the route has kind `i`, its keys zipped with its captures, its splat and the parsed query |
| `Decoder.DecodeCatchAll` | index.js:99-103 | when no matcher accepts the path, the route is the catch-all kind with `routePath` equal to the path, empty `routeParams`, no splat and the parsed query |
| `Decoder.DecodedKindWasFirst` | index.js:79-96 | a decoded table kind was accepted by its own matcher and by no matcher declared before it |
| `Decoder.DecodedCatchAllIffNoMatch` | index.js:79-103 | the catch-all kind is decoded if and only if no matcher accepts the path |
| `Decoder.SplatAlsoInParams` | index.js:87-94 | the wildcard's capture appears both as `routeSplat` and under the wildcard key's name in `routeParams`, except that a wildcard named `__proto__` appears only as `routeSplat` |
| `Encoder.MergeSplat` | index.js:27-29 | a truthy splat is added under slot `0`, overriding that slot and keeping every other parameter except an own `__proto__`, which assignment does not copy; a falsy one leaves `routeParams` exactly as given, even when it is undefined |
| `Encoder.GeneratorSeesSplatUnescaped` | index.js:26-46 | the value the generator reads from slot `0` is the truthy splat, and the `encode` option hands it over unescaped; every other defined parameter of the caller (other than `0` and `__proto__`) whose value differs from the splat reaches the generator unchanged and is percent-encoded; a falsy splat adds no `encode` option and leaves `routeParams` as given |
| `Encoder.AbsentQueryNoSuffix` | index.js:47-69 | a missing `queryParams`, or an empty one that serializes to the empty string, never produces a trailing `?`: the catch-all URL is `routePath` itself (`undefined` without one) and a table URL is exactly the generator's path |
| `Encoder.CheckRequired` | index.js:31-37 | the check passes if and only if every key is optional or found by `in` on the params, as an own property or one inherited from `Object.prototype`; otherwise it throws for the first key that is neither |
| `Encoder.TableUrl` | index.js:23-50 | a successful encoding is a string; with validation on, success implies every required key was present; with validation off, the only possible failure is the generator's |
| `Encoder.RequiredParamCheck` | index.js:30-38 | with validation on, encoding fails at the first key that is neither optional nor found by `in` (own or inherited), naming that key ("Route params must include ...") |
| `Encoder.InheritedNamesPass` | index.js:34 | a required key named after an `Object.prototype` property, such as `constructor`, passes the check on any params object, even an empty one |
| `Encoder.TableUrlSuccess` | index.js:39-49 | encoding succeeds if and only if the check passes (or validation is off) and the generator yields a path; the URL is then that path plus the query suffix |
| `Encoder.OnlyGeneratorDecides` | index.js:30-38 | optional keys never cause a failure, and with validation off no check is made: the generator alone decides |
| `Encoder.CatchAllUrl` | index.js:59-70 | with validation on, encoding succeeds if and only if `routePath` is a non-empty string, and the only error is the missing path; with validation off it always succeeds; a given path comes back with the query suffix, and a missing one renders as `undefined` (as `undefined?query` with a query) |
| `Encoder.GetURLForRoute` | index.js:105-107 | the catch-all kind is encoded by the catch-all handler, and a table kind by the handler of its own compiled entry |
| `RoundTrip.EncodedUrlSplits` | index.js:75-78 | a URL built from a path and a serialized query is read back into that path and a query that parses to the original one |
| `RoundTrip.ZipParamsInverse` | index.js:87-94 | zipping keys with captures that hold a params object's values rebuilds exactly that object when key names are distinct |
| `RoundTrip.CatchAllRoundTrip` | index.js:59-103 | an unmatched catch-all path without `?` encodes to path plus query suffix and decodes back to the same path and query |
| `RoundTrip.NamedParamsRoundTrip` | index.js:23-96 | a route with only named params encodes and decodes back to the same kind, params and query, given that the generator and matcher invert each other on it |
| `RoundTrip.SplatRoundTrip` | index.js:27-95 | a route whose only key is the `(.*)` wildcard (named `0`) encodes its splat through slot `0` and decodes back with that splat both as `routeSplat` and in `routeParams` |
| `Examples.DecodesNamedParams` | test/index.js:42-60 | `/foo/bar/baz` against `/foo/:name/:value` decodes to `{ name: 'bar', value: 'baz' }` |
| `Examples.DecodesSplat` | test/index.js:62-77 | `/foo/bar/baz` against `/foo/(.*)` decodes to the splat `bar/baz` |
| `Examples.MissingValueFails` | test/index.js:124-132 | through the router, encoding `/foo/:name/:value` with only `name` fails, naming `value` |
| `Examples.InheritedParamPasses` | index.js:33-36 | through the router, a route at `/:constructor` with empty params passes the check and gets the generator's path |
| `Examples.CatchAllWithoutPathFails` | test/index.js:134-142 | encoding the catch-all kind without `routePath` fails |
| `Examples.CatchAllWithQuery` | test/index.js:115-122 | the catch-all route `/bar/baz` with query `test=foo` encodes to `/bar/baz?test=foo` |
| `Examples.StaticWithQuery` | test/index.js:85-89 | the static route `/foo` with a query encodes to `/foo?name=bar&value=baz` |

## Left out

- path-to-regexp internals are not modelled: regex compilation, percent-decoding of captures and slot filling. It is a foreign library, so its key list, matcher and generator are the uninterpreted functions `keysOf`, `exec` and `generate`.
- The generator's throw on a missing value is a `None` from `generate`, reported as `GeneratorFailed`. Its message is not modelled.
- Node's `querystring` is a foreign library and stays abstract. Parsed values are flat strings, so the arrays it builds for duplicate keys are not represented.
- `encodeURIComponent` is a foreign function and stays abstract.
- The tagmeme union is replaced by the `Route` datatype and a dispatch on its kind.
- Encoder.GetURLForRoute: requires the route's kind to be one of the router's kinds, which is what tagmeme's constructors guarantee. Tagmeme's own error for an unhandled kind is not modelled.
- `process.env.NODE_ENV` is ambient state. It becomes the `validate` parameter.
- The `encode` option used in test/index.js:144-158 is not modelled. The `createRoutes` in index.js takes only `(table, catchAllKind)`.
- `Object.keys` moves integer-like kind names to the front. The table is modelled as a sequence already in the order `Object.keys` yields.
- Nothing checks that `catchAllKind` differs from every table kind. The model does not check it either. Dispatch gives the catch-all handler priority, since index.js installs it last. The lemmas that need distinct kinds state it as a precondition.
- Node's `querystring.stringify(undefined)` returning `''` is taken as given: `Collaborators.StringifyQuery` maps a missing `queryParams` to the empty string without consulting `stringifyQuery`.
- Payload values other than strings and `undefined` are not represented. That covers numbers in `routeParams` and a non-string `routePath`.
- Parameter objects whose prototype is not `Object.prototype` are not represented, such as `Object.create(null)` or a class instance. Their inherited names would differ from the fixed set `Collaborators.InheritedNames`.
- Routes.CreateRoutes: requires distinct kind names, because the keys of a JavaScript object are distinct.

=== FILE: collaborators.dfy ===
/** The foreign libraries the router calls, kept abstract: path-to-regexp
    (key extraction, matching and path generation), Node's `querystring`
    (parse and stringify) and `encodeURIComponent`. Each is a function
    field of `Lib`, so every property of the router holds for every
    implementation of them. */
module Collaborators {
  import opened Wrappers

  /** A parameter key as path-to-regexp reports it. An unnamed group gets a
      numeric name, so the first one is named "0"; `pattern` is the group's
      own regular expression, ".*" for a wildcard. */
  datatype KeyDesc = KeyDesc(name: string, optional: bool, pattern: string)

  /** The pattern of a wildcard ("match everything") key. */
  const Wildcard: string := ".*"

  /** A parameter object: property name to a string or `undefined`. */
  type Params = map<string, Option<string>>

  /** The property whose assignment sets an object's prototype rather than
      creating a property; assigning it a string or `undefined` does nothing. */
  const ProtoName: string := "__proto__"

  /** The properties every plain object inherits from `Object.prototype`:
      the `in` operator finds them on an object that does not own them. */
  const InheritedNames: set<string> := {
    "constructor", "hasOwnProperty", "isPrototypeOf", "propertyIsEnumerable",
    "toLocaleString", "toString", "valueOf", "__defineGetter__",
    "__defineSetter__", "__lookupGetter__", "__lookupSetter__", ProtoName
  }

  /** `name in obj` for a plain object, given by its own properties. */
  predicate HasProperty(obj: Params, name: string)
  {
    name in obj || name in InheritedNames
  }

  /** Assigning `value` to property `name` of a plain object: every name but
      `__proto__` becomes an own property holding the value. */
  function SetProperty(obj: Params, name: string, value: Option<string>): Params
  {
    if name == ProtoName then obj else obj[name := value]
  }

  /** A parsed query string: a flat key-to-string mapping. */
  type Query = map<string, string>

  /** The groups of a successful `exec`, `match[1]` onwards; an optional
      group that took no part in the match is `undefined`. */
  type Captures = seq<Option<string>>

  /** The `encode` option handed to a path generator. */
  type Encode = string -> string

  datatype Lib = Lib(
    /** The key list path-to-regexp reports for a pattern. */
    keysOf: string -> seq<KeyDesc>,
    /** The compiled pattern's `exec` on a path: the captures, or no match. */
    exec: (string, string) -> Option<Captures>,
    /** The pattern's path generator on params and options: a path, or a throw. */
    generate: (string, Option<Params>, Option<Encode>) -> Option<string>,
    /** `querystring.parse`. */
    parseQuery: string -> Query,
    /** `querystring.stringify` on an object. */
    stringifyQuery: Query -> string,
    /** `encodeURIComponent`. */
    encodeUriComponent: string -> string)

  /** Serializing a route's query: Node's `stringify` returns the
      empty string when it is given no object at all. */
  function StringifyQuery(lib: Lib, q: Option<Query>): string
  {
    match q
    case None => ""
    case Some(m) => lib.stringifyQuery(m)
  }
}

=== FILE: decoder.dfy ===
/** `getRouteForURL`: from a URL to a route value. */
module Decoder {
  import opened Wrappers
  import opened Collaborators
  import opened Routes
  import Search
  import Url

  /** The capture for key `i`: `undefined` past the end of the captures. */
  function Capture(caps: Captures, i: nat): Option<string>
  {
    if i < |caps| then caps[i] else None
  }

  /** No later key reuses the name of key `i`, so its assignment is final. */
  predicate LastWithName(keys: seq<KeyDesc>, i: nat)
    requires i < |keys|
  {
    forall j :: i < j < |keys| ==> keys[j].name != keys[i].name
  }

  /** Key `i` is a wildcard and no later key is one. */
  predicate LastWildcard(keys: seq<KeyDesc>, i: nat)
    requires i < |keys|
  {
    keys[i].pattern == Wildcard && forall j :: i < j < |keys| ==> keys[j].pattern != Wildcard
  }

  /** The set of key names of a pattern. */
  function KeyNames(keys: seq<KeyDesc>): set<string>
  {
    set i | 0 <= i < |keys| :: keys[i].name
  }

  /** The params a match yields, written key by key in order: every key name
      but `__proto__` (whose assignment creates no property) is present, and
      each holds the capture of the last key with that name. */
  function ZipParams(keys: seq<KeyDesc>, caps: Captures): (p: Params)
    ensures p.Keys == KeyNames(keys) - {ProtoName}
    ensures forall i :: 0 <= i < |keys| && LastWithName(keys, i) && keys[i].name != ProtoName ==>
      p[keys[i].name] == Capture(caps, i)
    decreases |keys|
  {
    if |keys| == 0 then map[]
    else
      var n := |keys| - 1;
      var front := keys[..n];
      var p := SetProperty(ZipParams(front, caps), keys[n].name, Capture(caps, n));
      KeyNamesSnoc(keys);
      LastWithNameFront(keys);
      p
  }

  /** The names of a key list are those of its front plus its last. */
  lemma KeyNamesSnoc(keys: seq<KeyDesc>)
    requires |keys| > 0
    ensures KeyNames(keys) == KeyNames(keys[..|keys| - 1]) + {keys[|keys| - 1].name}
  {
  }

  /** A key whose name is final in the whole list is final in its front. */
  lemma LastWithNameFront(keys: seq<KeyDesc>)
    requires |keys| > 0
    ensures forall i :: 0 <= i < |keys| - 1 && LastWithName(keys, i) ==> LastWithName(keys[..|keys| - 1], i)
  {
  }

  /** `routeSplat`: the capture of the last wildcard key, `undefined` when
      the pattern has none. */
  function SplatOf(keys: seq<KeyDesc>, caps: Captures): (s: Option<string>)
    ensures (forall i :: 0 <= i < |keys| ==> keys[i].pattern != Wildcard) ==> s == None
    ensures forall i :: 0 <= i < |keys| && LastWildcard(keys, i) ==> s == Capture(caps, i)
    decreases |keys|
  {
    if |keys| == 0 then None
    else
      var n := |keys| - 1;
      if keys[n].pattern == Wildcard then Capture(caps, n)
      else
        var s := SplatOf(keys[..n], caps);
        assert forall i :: 0 <= i < n && LastWildcard(keys, i) ==> LastWildcard(keys[..n], i);
        s
  }

  /** Whether a matcher's pattern accepts a path. */
  function Accepts(lib: Lib, path: string): Matcher -> bool
  {
    (m: Matcher) => lib.exec(m.pattern, path).Some?
  }

  /** The table-kind route built from a successful match. */
  function Matched(m: Matcher, caps: Captures, queryParams: Query): Route
  {
    Route(m.kind, Data(Some(ZipParams(m.keys, caps)), SplatOf(m.keys, caps), Some(queryParams), None))
  }

  /** The catch-all route built when nothing matches: empty params, the raw
      path and the parsed query. */
  function Unmatched(r: Router, path: string, queryParams: Query): Route
  {
    Route(r.catchAllKind, Data(Some(map[]), None, Some(queryParams), Some(path)))
  }

  /** `getRouteForURL`: the first matcher in table order that accepts the
      URL's path decides the kind, and the catch-all kind takes the rest. It
      never fails, and the query is parsed whatever the kind. */
  function GetRouteForURL(r: Router, url: string): (route: Route)
    ensures IsKind(r, route.kind)
    ensures route.data.queryParams == Some(r.lib.parseQuery(Url.QueryOf(url)))
    ensures route.data.routeParams.Some?
  {
    var path := Url.PathOf(url);
    var queryParams := r.lib.parseQuery(Url.QueryOf(url));
    match Search.First(r.matchers, Accepts(r.lib, path))
    case Some(i) =>
      var m := r.matchers[i];
      Matched(m, r.lib.exec(m.pattern, path).value, queryParams)
    case None => Unmatched(r, path, queryParams)
  }

  /** First match wins: when matcher `i` accepts the path and no earlier one
      does, the route is of kind `i`, with its keys zipped to its captures. */
  lemma DecodeFirstMatch(r: Router, url: string, i: nat)
    requires i < |r.matchers|
    requires r.lib.exec(r.matchers[i].pattern, Url.PathOf(url)).Some?
    requires forall j :: 0 <= j < i ==> r.lib.exec(r.matchers[j].pattern, Url.PathOf(url)).None?
    ensures GetRouteForURL(r, url) ==
      Matched(r.matchers[i], r.lib.exec(r.matchers[i].pattern, Url.PathOf(url)).value,
              r.lib.parseQuery(Url.QueryOf(url)))
  {
    var accepts := Accepts(r.lib, Url.PathOf(url));
    assert accepts(r.matchers[i]);
    forall j | 0 <= j < i ensures !accepts(r.matchers[j]) {
    }
    Search.FirstIsUnique(r.matchers, accepts, i);
  }

  /** The decoder is total: when no matcher accepts the path, the route is
      the catch-all kind carrying the path, no params and the parsed query. */
  lemma DecodeCatchAll(r: Router, url: string)
    requires forall j :: 0 <= j < |r.matchers| ==> r.lib.exec(r.matchers[j].pattern, Url.PathOf(url)).None?
    ensures GetRouteForURL(r, url) ==
      Route(r.catchAllKind, Data(Some(map[]), None, Some(r.lib.parseQuery(Url.QueryOf(url))), Some(Url.PathOf(url))))
  {
  }

  /** The converse of first-match-wins: a decoded table kind was accepted by
      its own matcher and by no matcher declared before it. */
  lemma DecodedKindWasFirst(r: Router, url: string, i: nat)
    requires DistinctMatcherKinds(r.matchers)
    requires forall j :: 0 <= j < |r.matchers| ==> r.matchers[j].kind != r.catchAllKind
    requires i < |r.matchers|
    requires GetRouteForURL(r, url).kind == r.matchers[i].kind
    ensures r.lib.exec(r.matchers[i].pattern, Url.PathOf(url)).Some?
    ensures forall j :: 0 <= j < i ==> r.lib.exec(r.matchers[j].pattern, Url.PathOf(url)).None?
  {
  }

  /** The catch-all kind is decoded exactly when no matcher accepts the path. */
  lemma DecodedCatchAllIffNoMatch(r: Router, url: string)
    requires forall j :: 0 <= j < |r.matchers| ==> r.matchers[j].kind != r.catchAllKind
    ensures GetRouteForURL(r, url).kind == r.catchAllKind <==>
      forall j :: 0 <= j < |r.matchers| ==> r.lib.exec(r.matchers[j].pattern, Url.PathOf(url)).None?
  {
  }

  /** A wildcard's capture is surfaced twice: as `routeSplat` and under the
      wildcard key's own name in `routeParams`, unless that name is
      `__proto__`, which never becomes a property. */
  lemma SplatAlsoInParams(keys: seq<KeyDesc>, caps: Captures, w: nat)
    requires w < |keys| && LastWildcard(keys, w) && LastWithName(keys, w)
    ensures SplatOf(keys, caps) == Capture(caps, w)
    ensures keys[w].name != ProtoName ==> keys[w].name in ZipParams(keys, caps)
    ensures keys[w].name != ProtoName ==> ZipParams(keys, caps)[keys[w].name] == SplatOf(keys, caps)
    ensures keys[w].name == ProtoName ==> keys[w].name !in ZipParams(keys, caps)
  {
    assert keys[w].name in KeyNames(keys);
  }
}

=== FILE: encoder.dfy ===
/** `getURLForRoute`: from a route value back to a URL, through the handler
    `routeUrlMap` holds for the route's kind. */
module Encoder {
  import opened Wrappers
  import opened Collaborators
  import opened Routes
  import Search
  import Url

  /** What the encoder can throw. */
  datatype RouteError =
    /** `invariant`: Route params must include "<name>". */
    | MissingRouteParam(name: string)
    /** `key.name in params` on an undefined `params` throws a TypeError. */
    | RouteParamsNotObject(name: string)
    /** `invariant`: Catch-all route requires a `routePath` string. */
    | MissingRoutePath
    /** The path generator of the named kind threw. */
    | GeneratorFailed(kind: Kind)

  /** What a handler returns: a string, or `undefined` when a catch-all
      route without a `routePath` is encoded with validation off. */
  datatype Output = Text(s: string) | Undefined

  /** JavaScript truthiness of an optional string: defined and non-empty. */
  predicate Truthy(v: Option<string>)
  {
    v.Some? && v.value != ""
  }

  /** The property a wildcard value is merged into: `{ 0: routeSplat }`. */
  const SplatSlot: string := "0"

  /** The property names of an optional parameter object. */
  function NamesOf(params: Option<Params>): set<string>
  {
    if params.Some? then params.value.Keys else {}
  }

  /** The params handed to the generator. A truthy splat is added under slot "0", overriding that slot and
      keeping every other parameter; otherwise the parameters pass through. */
  function MergeSplat(routeParams: Option<Params>, routeSplat: Option<string>): (params: Option<Params>)
    ensures !Truthy(routeSplat) ==> params == routeParams
    ensures Truthy(routeSplat) ==> params.Some?
    ensures Truthy(routeSplat) ==> params.value.Keys == NamesOf(routeParams) - {ProtoName} + {SplatSlot}
    ensures Truthy(routeSplat) ==> params.value[SplatSlot] == routeSplat
    ensures Truthy(routeSplat) ==>
      forall k :: k in NamesOf(routeParams) && k != SplatSlot && k != ProtoName ==> params.value[k] == routeParams.value[k]
  {
    if Truthy(routeSplat) then
      // `Object.assign` copies by assignment, so an own `__proto__` is not copied.
      var base := if routeParams.Some? then routeParams.value - {ProtoName} else map[];
      Some(base[SplatSlot := routeSplat])
    else routeParams
  }

  /** The `encode` function built around a splat: the
      wildcard value goes into the path unescaped, any other value is
      percent-encoded. */
  function SplatEncoder(uri: string -> string, splat: string): Encode
  {
    x => if x == splat then splat else uri(x)
  }

  /** The options passed to the path generator: an `encode` that protects a
      truthy splat, or none at all. */
  function EncodeOption(lib: Lib, routeSplat: Option<string>): Option<Encode>
  {
    if Truthy(routeSplat) then Some(SplatEncoder(lib.encodeUriComponent, routeSplat.value)) else None
  }

  /** A key passes the check: it is optional, or `params` is defined and
      has the property, as its own or inherited from `Object.prototype`. */
  predicate Satisfied(key: KeyDesc, params: Option<Params>)
  {
    key.optional || (params.Some? && HasProperty(params.value, key.name))
  }

  /** The error the `invariant` (or the `in` operator) throws for `key`. */
  function MissingError(key: KeyDesc, params: Option<Params>): RouteError
  {
    if params.None? then RouteParamsNotObject(key.name) else MissingRouteParam(key.name)
  }

  /** Whether a key fails the required-parameter check. */
  function Unsatisfied(params: Option<Params>): KeyDesc -> bool
  {
    (key: KeyDesc) => !Satisfied(key, params)
  }

  /** Key `i` is the first key that is neither optional nor present. */
  predicate FirstUnsatisfied(keys: seq<KeyDesc>, params: Option<Params>, i: nat)
    requires i < |keys|
  {
    !Satisfied(keys[i], params) && forall j :: 0 <= j < i ==> Satisfied(keys[j], params)
  }

  /** The required-key check over the pattern's keys, in order: passes when every key is
      optional or present, and otherwise throws for the first key that is
      neither. */
  function CheckRequired(keys: seq<KeyDesc>, params: Option<Params>): (o: Outcome<RouteError>)
    ensures o.Pass? <==> forall i :: 0 <= i < |keys| ==> Satisfied(keys[i], params)
    ensures forall i :: 0 <= i < |keys| && FirstUnsatisfied(keys, params, i) ==>
      o == Fail(MissingError(keys[i], params))
  {
    match Search.First(keys, Unsatisfied(params))
    case None =>
      assert forall i :: 0 <= i < |keys| ==> !Unsatisfied(params)(keys[i]);
      Pass
    case Some(i) =>
      assert !Satisfied(keys[i], params);
      assert forall j :: 0 <= j < i ==> !Unsatisfied(params)(keys[j]);
      forall k | 0 <= k < |keys| && FirstUnsatisfied(keys, params, k) ensures k == i {
        Search.FirstIsUnique(keys, Unsatisfied(params), k);
      }
      Fail(MissingError(keys[i], params))
  }

  /** The table-kind handler `routeUrlMap[kind]`: merge the splat, check the
      required keys when validating, generate the path, append the query. */
  function TableUrl(lib: Lib, validate: bool, m: Matcher, data: Data): (r: Result<Output, RouteError>)
    ensures r.Success? ==> r.value.Text?
    ensures r.Success? && validate ==>
      forall i :: 0 <= i < |m.keys| ==> Satisfied(m.keys[i], MergeSplat(data.routeParams, data.routeSplat))
    ensures r.Failure? && !validate ==> r.error == GeneratorFailed(m.kind)
  {
    var params := MergeSplat(data.routeParams, data.routeSplat);
    var check := if validate then CheckRequired(m.keys, params) else Pass;
    if check.Fail? then Failure(check.error)
    else
      match lib.generate(m.pattern, params, EncodeOption(lib, data.routeSplat))
      case None => Failure(GeneratorFailed(m.kind))
      case Some(path) => Success(Text(Url.WithQuery(path, StringifyQuery(lib, data.queryParams))))
  }

  /** The catch-all handler: with validation on it throws unless `routePath`
      is a non-empty string; otherwise the path, with the query appended. */
  function CatchAllUrl(lib: Lib, validate: bool, data: Data): (r: Result<Output, RouteError>)
    ensures r.Success? <==> !validate || Truthy(data.routePath)
    ensures r.Failure? ==> r.error == MissingRoutePath
    ensures r.Success? && data.routePath.Some? ==>
      r.value == Text(Url.WithQuery(data.routePath.value, StringifyQuery(lib, data.queryParams)))
    ensures r.Success? && data.routePath.None? ==>
      r.value == (if |StringifyQuery(lib, data.queryParams)| > 0
                  then Text("undefined?" + StringifyQuery(lib, data.queryParams))
                  else Undefined)
  {
    if validate && !Truthy(data.routePath) then Failure(MissingRoutePath)
    else
      var query := StringifyQuery(lib, data.queryParams);
      match data.routePath
      case Some(path) => Success(Text(Url.WithQuery(path, query)))
      // A template string renders `undefined` as the text "undefined".
      case None =>
        if |query| > 0 then
          assert "undefined" + "?" == "undefined?";
          Success(Text(Url.WithQuery("undefined", query)))
        else Success(Undefined)
  }

  /** `getURLForRoute`: dispatch on the route's kind to its handler. The
      catch-all handler is installed last, so it answers for its kind. */
  function GetURLForRoute(r: Router, validate: bool, route: Route): (u: Result<Output, RouteError>)
    requires IsKind(r, route.kind)
    ensures route.kind == r.catchAllKind ==> u == CatchAllUrl(r.lib, validate, route.data)
    ensures route.kind != r.catchAllKind ==>
      exists i :: 0 <= i < |r.matchers| && r.matchers[i].kind == route.kind &&
        u == TableUrl(r.lib, validate, r.matchers[i], route.data)
  {
    if route.kind == r.catchAllKind then CatchAllUrl(r.lib, validate, route.data)
    else
      var m := MatcherFor(r, route.kind);
      assert exists i :: 0 <= i < |r.matchers| && r.matchers[i] == m;
      TableUrl(r.lib, validate, m, route.data)
  }

  /** Required-parameter check: with validation on, encoding fails at the
      first key that is neither optional nor present, naming that key. */
  lemma RequiredParamCheck(lib: Lib, m: Matcher, data: Data, i: nat)
    requires i < |m.keys|
    requires !Satisfied(m.keys[i], MergeSplat(data.routeParams, data.routeSplat))
    requires forall j :: 0 <= j < i ==> Satisfied(m.keys[j], MergeSplat(data.routeParams, data.routeSplat))
    ensures TableUrl(lib, true, m, data) == Failure(MissingError(m.keys[i], MergeSplat(data.routeParams, data.routeSplat)))
  {
  }

  /** A required key named after a property of `Object.prototype`, such as
      `constructor`, passes the check on any defined params object, even an
      empty one; only a key that is neither optional, owned nor inherited
      can fail it. */
  lemma InheritedNamesPass(keys: seq<KeyDesc>, params: Params)
    requires forall i :: 0 <= i < |keys| ==> keys[i].optional || keys[i].name in params || keys[i].name in InheritedNames
    ensures CheckRequired(keys, Some(params)) == Pass
  {
  }

  /** Encoding succeeds exactly when the check passes (or is off) and the
      generator yields a path; the URL is that path with the query suffix,
      and the generator sees the merged parameters and the splat encoder. */
  lemma TableUrlSuccess(lib: Lib, validate: bool, m: Matcher, data: Data)
    ensures var params := MergeSplat(data.routeParams, data.routeSplat);
      var path := lib.generate(m.pattern, params, EncodeOption(lib, data.routeSplat));
      TableUrl(lib, validate, m, data).Success? <==>
        (!validate || forall i :: 0 <= i < |m.keys| ==> Satisfied(m.keys[i], params)) && path.Some?
    ensures var params := MergeSplat(data.routeParams, data.routeSplat);
      var path := lib.generate(m.pattern, params, EncodeOption(lib, data.routeSplat));
      TableUrl(lib, validate, m, data).Success? ==>
        TableUrl(lib, validate, m, data).value == Text(Url.WithQuery(path.value, StringifyQuery(lib, data.queryParams)))
  {
  }

  /** What the generator does with the merged parameters: a truthy splat is
      read back from slot `0` and the `encode` option hands it over
      unescaped, while every other defined parameter of the caller whose
      value differs from the splat is percent-encoded. A falsy splat adds no
      option and leaves the parameters as given. */
  lemma GeneratorSeesSplatUnescaped(lib: Lib, routeParams: Option<Params>, routeSplat: Option<string>)
    ensures !Truthy(routeSplat) ==>
      EncodeOption(lib, routeSplat).None? && MergeSplat(routeParams, routeSplat) == routeParams
    ensures Truthy(routeSplat) ==>
      var params := MergeSplat(routeParams, routeSplat).value;
      var encode := EncodeOption(lib, routeSplat).value;
      params[SplatSlot] == routeSplat && encode(params[SplatSlot].value) == params[SplatSlot].value
    ensures Truthy(routeSplat) ==>
      var params := MergeSplat(routeParams, routeSplat).value;
      var encode := EncodeOption(lib, routeSplat).value;
      forall k :: (k in NamesOf(routeParams) && k != SplatSlot && k != ProtoName &&
                   routeParams.value[k].Some? && routeParams.value[k].value != routeSplat.value) ==>
          k in params && params[k] == routeParams.value[k] &&
          encode(params[k].value) == lib.encodeUriComponent(routeParams.value[k].value)
  {
  }

  /** Without `queryParams`, or with an empty one that serializes to the
      empty string, no `?` is appended: the catch-all URL is the route path
      itself (or `undefined` without one) and a table URL is exactly the
      generator's path. */
  lemma AbsentQueryNoSuffix(lib: Lib, validate: bool, m: Matcher, data: Data)
    ensures var noQuery := data.queryParams.None? ||
        (data.queryParams == Some(map[]) && lib.stringifyQuery(map[]) == "");
      noQuery && data.routePath.Some? && CatchAllUrl(lib, validate, data).Success? ==>
        CatchAllUrl(lib, validate, data) == Success(Text(data.routePath.value))
    ensures var noQuery := data.queryParams.None? ||
        (data.queryParams == Some(map[]) && lib.stringifyQuery(map[]) == "");
      noQuery && data.routePath.None? && CatchAllUrl(lib, validate, data).Success? ==>
        CatchAllUrl(lib, validate, data) == Success(Undefined)
    ensures var noQuery := data.queryParams.None? ||
        (data.queryParams == Some(map[]) && lib.stringifyQuery(map[]) == "");
      noQuery && TableUrl(lib, validate, m, data).Success? ==>
        lib.generate(m.pattern, MergeSplat(data.routeParams, data.routeSplat), EncodeOption(lib, data.routeSplat))
          == Some(TableUrl(lib, validate, m, data).value.s)
  {
  }

  /** Optional keys never make encoding fail, and with validation off no
      check is made at all: the outcome is the generator's alone. */
  lemma OnlyGeneratorDecides(lib: Lib, validate: bool, m: Matcher, data: Data)
    requires !validate || forall i :: 0 <= i < |m.keys| ==> m.keys[i].optional
    ensures TableUrl(lib, validate, m, data).Success? <==>
      lib.generate(m.pattern, MergeSplat(data.routeParams, data.routeSplat), EncodeOption(lib, data.routeSplat)).Some?
  {
    TableUrlSuccess(lib, validate, m, data);
  }
}

=== FILE: examples.dfy ===
/** The behaviours the repository's own test suite exercises, stated over
    any implementation of the foreign libraries that agrees with the
    values those tests rely on. */
module Examples {
  import opened Wrappers
  import opened Collaborators
  import opened Routes
  import Url
  import opened Decoder
  import opened Encoder
  import RoundTrip

  /** The key path-to-regexp reports for a `:name` segment. */
  function Named(name: string): KeyDesc
  {
    KeyDesc(name, false, "[^\\/]+?")
  }

  /** A table with `Foo` at `/foo/:name/:value` decodes `/foo/bar/baz` to named params. */
  lemma DecodesNamedParams(lib: Lib)
    requires lib.keysOf("/foo/:name/:value") == [Named("name"), Named("value")]
    requires lib.exec("/foo/:name/:value", "/foo/bar/baz") == Some([Some("bar"), Some("baz")])
    ensures GetRouteForURL(CreateRoutes(lib, [("Foo", "/foo/:name/:value")], "NotFound"), "/foo/bar/baz").kind == "Foo"
    ensures GetRouteForURL(CreateRoutes(lib, [("Foo", "/foo/:name/:value")], "NotFound"), "/foo/bar/baz").data.routeParams
      == Some(map["name" := Some("bar"), "value" := Some("baz")])
  {
    var r := CreateRoutes(lib, [("Foo", "/foo/:name/:value")], "NotFound");
    var keys := [Named("name"), Named("value")];
    var p := map["name" := Some("bar"), "value" := Some("baz")];
    assert ZipParams(keys, [Some("bar"), Some("baz")]) == p by {
      assert KeyNames(keys) == {"name", "value"} by {
        assert keys[0].name == "name" && keys[1].name == "value";
      }
      assert "name" != ProtoName && "value" != ProtoName;
      RoundTrip.ZipParamsInverse(keys, [Some("bar"), Some("baz")], p);
    }
    assert r.matchers[0] == Matcher("Foo", "/foo/:name/:value", keys);
    Url.SplitNoSeparator("/foo/bar/baz", '?');
    DecodeFirstMatch(r, "/foo/bar/baz", 0);
  }

  /** A table with `Foo` at `/foo/(.*)` decodes `/foo/bar/baz` with splat "bar/baz". */
  lemma DecodesSplat(lib: Lib)
    requires lib.keysOf("/foo/(.*)") == [KeyDesc("0", false, Wildcard)]
    requires lib.exec("/foo/(.*)", "/foo/bar/baz") == Some([Some("bar/baz")])
    ensures GetRouteForURL(CreateRoutes(lib, [("Foo", "/foo/(.*)")], "NotFound"), "/foo/bar/baz").data.routeSplat
      == Some("bar/baz")
  {
  }

  /** A `Foo` route at `/foo/:name/:value` whose params name only `name`
      fails, naming the missing "value". */
  lemma MissingValueFails(lib: Lib)
    requires lib.keysOf("/foo/:name/:value") == [Named("name"), Named("value")]
    ensures GetURLForRoute(CreateRoutes(lib, [("Foo", "/foo/:name/:value")], "NotFound"), true,
                           Route("Foo", Data(Some(map["name" := Some("poop")]), None, None, None)))
      == Failure(MissingRouteParam("value"))
  {
    var r := CreateRoutes(lib, [("Foo", "/foo/:name/:value")], "NotFound");
    var data := Data(Some(map["name" := Some("poop")]), None, None, None);
    MatcherForIndex(r, 0);
    assert GetURLForRoute(r, true, Route("Foo", data)) == TableUrl(lib, true, r.matchers[0], data);
    RequiredParamCheck(lib, r.matchers[0], data, 1);
  }

  /** A `P` route at `/:constructor` with empty params passes the check,
      because every object inherits a `constructor` property, so the
      generator decides. */
  lemma InheritedParamPasses(lib: Lib)
    requires lib.keysOf("/:constructor") == [Named("constructor")]
    requires lib.generate("/:constructor", Some(map[]), None) == Some("/x")
    ensures GetURLForRoute(CreateRoutes(lib, [("P", "/:constructor")], "NotFound"), true,
                           Route("P", Data(Some(map[]), None, None, None)))
      == Success(Text("/x"))
  {
  }

  /** A catch-all route with an empty payload fails for want of a `routePath`. */
  lemma CatchAllWithoutPathFails(lib: Lib)
    ensures GetURLForRoute(CreateRoutes(lib, [("Foo", "/foo/:name/:value")], "NotFound"), true,
                           Route("NotFound", Data(None, None, None, None)))
      == Failure(MissingRoutePath)
  {
  }

  /** A catch-all route with path `/bar/baz` and query `test` = `foo`
      encodes to `/bar/baz?test=foo`. */
  lemma CatchAllWithQuery(lib: Lib)
    requires lib.stringifyQuery(map["test" := "foo"]) == "test=foo"
    ensures GetURLForRoute(CreateRoutes(lib, [("Foo", "/foo")], "NotFound"), true,
                           Route("NotFound", Data(None, None, Some(map["test" := "foo"]), Some("/bar/baz"))))
      == Success(Text("/bar/baz?test=foo"))
  {
    assert Url.WithQuery("/bar/baz", "test=foo") == "/bar/baz?test=foo";
  }

  /** A `Foo` route at `/foo` with query `name` = `bar`, `value` = `baz`
      encodes to `/foo?name=bar&value=baz`. */
  lemma StaticWithQuery(lib: Lib)
    requires lib.keysOf("/foo") == []
    requires lib.generate("/foo", None, None) == Some("/foo")
    requires lib.stringifyQuery(map["name" := "bar", "value" := "baz"]) == "name=bar&value=baz"
    ensures GetURLForRoute(CreateRoutes(lib, [("Foo", "/foo")], "NotFound"), true,
                           Route("Foo", Data(None, None, Some(map["name" := "bar", "value" := "baz"]), None)))
      == Success(Text("/foo?name=bar&value=baz"))
  {
    assert Url.WithQuery("/foo", "name=bar&value=baz") == "/foo?name=bar&value=baz" by {
      assert "/foo" + "?" + "name=bar&value=baz" == "/foo?name=bar&value=baz";
    }
    var r := CreateRoutes(lib, [("Foo", "/foo")], "NotFound");
    var data := Data(None, None, Some(map["name" := "bar", "value" := "baz"]), None);
    assert GetURLForRoute(r, true, Route("Foo", data)) == Success(Text(Url.WithQuery("/foo", "name=bar&value=baz"))) by {
      var m := r.matchers[0];
      assert m == Matcher("Foo", "/foo", []);
      MatcherForIndex(r, 0);
      assert GetURLForRoute(r, true, Route("Foo", data)) == TableUrl(lib, true, m, data);
      assert CheckRequired([], None) == Pass;
      assert EncodeOption(lib, None) == None;
      assert MergeSplat(None, None) == None;
      assert StringifyQuery(lib, data.queryParams) == "name=bar&value=baz";
      assert TableUrl(lib, true, m, data) == Success(Text(Url.WithQuery("/foo", "name=bar&value=baz")));
    }
  }
}

=== FILE: roundtrip.dfy ===
/** Encoding then decoding: the decoder reads back the route the encoder
    wrote, given the foreign libraries' own round trips. */
module RoundTrip {
  import opened Wrappers
  import opened Collaborators
  import opened Routes
  import Url
  import opened Decoder
  import opened Encoder

  /** The query codec reads back what it writes, and writes no `?`. */
  predicate QueryCodecInverts(lib: Lib, q: Query)
  {
    lib.parseQuery(lib.stringifyQuery(q)) == q && '?' !in lib.stringifyQuery(q)
  }

  /** Key names of a pattern are pairwise distinct. */
  predicate DistinctNames(keys: seq<KeyDesc>)
  {
    forall i, j :: 0 <= i < j < |keys| ==> keys[i].name != keys[j].name
  }

  /** A URL built from a path and a serialized query splits back into that
      path and a query string that parses to the original query. */
  lemma EncodedUrlSplits(lib: Lib, path: string, q: Query)
    requires '?' !in path && QueryCodecInverts(lib, q)
    ensures Url.PathOf(Url.WithQuery(path, lib.stringifyQuery(q))) == path
    ensures lib.parseQuery(Url.QueryOf(Url.WithQuery(path, lib.stringifyQuery(q)))) == q
  {
    Url.SplitUrlWithQuery(path, lib.stringifyQuery(q));
  }

  /** Zipping the keys with captures that hold a parameter object's values
      gives that object back, when the key names are distinct and, but for
      `__proto__`, are exactly the object's property names. */
  lemma ZipParamsInverse(keys: seq<KeyDesc>, caps: Captures, p: Params)
    requires DistinctNames(keys)
    requires p.Keys == KeyNames(keys) - {ProtoName}
    requires forall j :: 0 <= j < |keys| && keys[j].name != ProtoName ==> Capture(caps, j) == p[keys[j].name]
    ensures ZipParams(keys, caps) == p
  {
  }

  /** A catch-all route survives the trip when its path contains no `?`
      and no matcher accepts it. */
  lemma CatchAllRoundTrip(r: Router, validate: bool, route: Route, path: string, q: Query)
    requires route.kind == r.catchAllKind
    requires route.data.routePath == Some(path) && route.data.queryParams == Some(q)
    requires !validate || path != ""
    requires '?' !in path && QueryCodecInverts(r.lib, q)
    requires forall j :: 0 <= j < |r.matchers| ==> r.lib.exec(r.matchers[j].pattern, path).None?
    ensures GetURLForRoute(r, validate, route) == Success(Text(Url.WithQuery(path, r.lib.stringifyQuery(q))))
    ensures GetRouteForURL(r, Url.WithQuery(path, r.lib.stringifyQuery(q))) ==
      Route(r.catchAllKind, Data(Some(map[]), None, Some(q), Some(path)))
  {
    EncodedUrlSplits(r.lib, path, q);
    DecodeCatchAll(r, Url.WithQuery(path, r.lib.stringifyQuery(q)));
  }

  /** A table route with only named parameters survives the trip: when the
      generator writes a path without `?` that the kind's own matcher reads
      back into the same values and no earlier matcher accepts, the decoded
      route has the same kind, parameters and query. */
  lemma NamedParamsRoundTrip(r: Router, validate: bool, i: nat, p: Params, q: Query,
                             path: string, caps: Captures)
    requires DistinctMatcherKinds(r.matchers)
    requires i < |r.matchers| && r.matchers[i].kind != r.catchAllKind
    requires DistinctNames(r.matchers[i].keys)
    requires p.Keys == KeyNames(r.matchers[i].keys) - {ProtoName}
    requires forall j :: 0 <= j < |r.matchers[i].keys| ==> r.matchers[i].keys[j].pattern != Wildcard
    requires r.lib.generate(r.matchers[i].pattern, Some(p), None) == Some(path)
    requires '?' !in path && QueryCodecInverts(r.lib, q)
    requires r.lib.exec(r.matchers[i].pattern, path) == Some(caps)
    requires forall j :: 0 <= j < |r.matchers[i].keys| && r.matchers[i].keys[j].name != ProtoName ==>
      Capture(caps, j) == p[r.matchers[i].keys[j].name]
    requires forall j :: 0 <= j < i ==> r.lib.exec(r.matchers[j].pattern, path).None?
    ensures var route := Route(r.matchers[i].kind, Data(Some(p), None, Some(q), None));
      && GetURLForRoute(r, validate, route) == Success(Text(Url.WithQuery(path, r.lib.stringifyQuery(q))))
      && GetRouteForURL(r, Url.WithQuery(path, r.lib.stringifyQuery(q))) == route
  {
    var m := r.matchers[i];
    var route := Route(m.kind, Data(Some(p), None, Some(q), None));
    MatcherForIndex(r, i);
    forall j | 0 <= j < |m.keys| ensures Satisfied(m.keys[j], Some(p)) {
      assert m.keys[j].name in KeyNames(m.keys);
    }
    assert GetURLForRoute(r, validate, route) == TableUrl(r.lib, validate, m, route.data);
    var url := Url.WithQuery(path, r.lib.stringifyQuery(q));
    EncodedUrlSplits(r.lib, path, q);
    DecodeFirstMatch(r, url, i);
    ZipParamsInverse(m.keys, caps, p);
  }

  /** A wildcard route survives the trip: the splat is generated through slot
      "0" unescaped and comes back both as `routeSplat` and in `routeParams`. */
  lemma SplatRoundTrip(r: Router, validate: bool, i: nat, splat: string, q: Query,
                       path: string, caps: Captures)
    requires DistinctMatcherKinds(r.matchers)
    requires i < |r.matchers| && r.matchers[i].kind != r.catchAllKind
    requires r.matchers[i].keys == [KeyDesc(SplatSlot, false, Wildcard)]
    requires splat != ""
    requires r.lib.generate(r.matchers[i].pattern, Some(map[SplatSlot := Some(splat)]),
                            EncodeOption(r.lib, Some(splat))) == Some(path)
    requires '?' !in path && QueryCodecInverts(r.lib, q)
    requires r.lib.exec(r.matchers[i].pattern, path) == Some(caps)
    requires Capture(caps, 0) == Some(splat)
    requires forall j :: 0 <= j < i ==> r.lib.exec(r.matchers[j].pattern, path).None?
    ensures var route := Route(r.matchers[i].kind, Data(None, Some(splat), Some(q), None));
      && GetURLForRoute(r, validate, route) == Success(Text(Url.WithQuery(path, r.lib.stringifyQuery(q))))
      && GetRouteForURL(r, Url.WithQuery(path, r.lib.stringifyQuery(q))) ==
         Route(r.matchers[i].kind, Data(Some(map[SplatSlot := Some(splat)]), Some(splat), Some(q), None))
  {
    var m := r.matchers[i];
    var route := Route(m.kind, Data(None, Some(splat), Some(q), None));
    MatcherForIndex(r, i);
    assert MergeSplat(None, Some(splat)) == Some(map[SplatSlot := Some(splat)]);
    assert GetURLForRoute(r, validate, route) == TableUrl(r.lib, validate, m, route.data);
    var url := Url.WithQuery(path, r.lib.stringifyQuery(q));
    EncodedUrlSplits(r.lib, path, q);
    DecodeFirstMatch(r, url, i);
    assert LastWildcard(m.keys, 0) && LastWithName(m.keys, 0);
    ZipParamsInverse(m.keys, caps, map[SplatSlot := Some(splat)]);
  }
}

=== FILE: routes.dfy ===
/** The route table, its compilation, and the tagged union of route kinds
    that `createRoutes` builds. */
module Routes {
  import opened Wrappers
  import opened Collaborators
  import Search

  /** A route kind: a table key or the catch-all kind. */
  type Kind = string

  /** The route table in declaration order: kind name and path pattern. */
  type Table = seq<(Kind, string)>

  /** One compiled table entry: `matchers[i]` together with
      `kindKeysMap[kind]` and `compiledPathCreators[kind]`, all three of
      which are determined by the pattern. */
  datatype Matcher = Matcher(kind: Kind, pattern: string, keys: seq<KeyDesc>)

  /** What `createRoutes` returns: the compiled table and the catch-all kind,
      over the foreign libraries it calls. */
  datatype Router = Router(lib: Lib, matchers: seq<Matcher>, catchAllKind: Kind)

  /** A route's payload, a JavaScript object whose every property may be
      missing: `routeParams`, `routeSplat` and `queryParams` for a table kind,
      `routePath` and `queryParams` for the catch-all kind. */
  datatype Data = Data(
    routeParams: Option<Params>,
    routeSplat: Option<string>,
    queryParams: Option<Query>,
    routePath: Option<string>)

  /** A value of the tagged union: a kind tag and its payload. */
  datatype Route = Route(kind: Kind, data: Data)

  /** Property names of an object are unique, so the table's kinds are. */
  predicate DistinctKinds(table: Table)
  {
    forall i, j :: 0 <= i < j < |table| ==> table[i].0 != table[j].0
  }

  /** The compiled table keeps one matcher per kind. */
  predicate DistinctMatcherKinds(ms: seq<Matcher>)
  {
    forall i, j :: 0 <= i < j < |ms| ==> ms[i].kind != ms[j].kind
  }

  /** Compiles one table entry. */
  function CompileEntry(lib: Lib, entry: (Kind, string)): Matcher
  {
    Matcher(entry.0, entry.1, lib.keysOf(entry.1))
  }

  /** The compile loop over the kinds: one matcher per table entry, in table order. */
  function Compile(lib: Lib, table: Table): (ms: seq<Matcher>)
    ensures |ms| == |table|
    ensures forall i :: 0 <= i < |table| ==> ms[i].kind == table[i].0
    ensures forall i :: 0 <= i < |table| ==> ms[i].pattern == table[i].1
    ensures forall i :: 0 <= i < |table| ==> ms[i].keys == lib.keysOf(table[i].1)
    decreases |table|
  {
    if |table| == 0 then []
    else [CompileEntry(lib, table[0])] + Compile(lib, table[1..])
  }

  /** `createRoutes`. The compiled table lists the
      table's kinds in order, each with its own pattern's keys. */
  function CreateRoutes(lib: Lib, table: Table, catchAllKind: Kind): (r: Router)
    requires DistinctKinds(table)
    ensures r.lib == lib && r.catchAllKind == catchAllKind
    ensures |r.matchers| == |table|
    ensures forall i :: 0 <= i < |table| ==>
      r.matchers[i] == Matcher(table[i].0, table[i].1, lib.keysOf(table[i].1))
    ensures DistinctMatcherKinds(r.matchers)
  {
    Router(lib, Compile(lib, table), catchAllKind)
  }

  /** The kinds of the union: the table kinds, then the catch-all kind. */
  function Kinds(r: Router): (ks: seq<Kind>)
    ensures |ks| == |r.matchers| + 1
    ensures ks[|r.matchers|] == r.catchAllKind
    ensures forall i :: 0 <= i < |r.matchers| ==> ks[i] == r.matchers[i].kind
  {
    seq(|r.matchers|, i requires 0 <= i < |r.matchers| => r.matchers[i].kind) + [r.catchAllKind]
  }

  /** A route the union can hold: its tag is one of the router's kinds. */
  predicate IsKind(r: Router, k: Kind)
  {
    k == r.catchAllKind || exists i :: 0 <= i < |r.matchers| && r.matchers[i].kind == k
  }

  /** The union's kinds are exactly the table kinds plus the catch-all. */
  lemma KindsAreTheUnion(r: Router, k: Kind)
    ensures IsKind(r, k) <==> k in Kinds(r)
  {
  }

  /** Whether a matcher belongs to kind `k`. */
  function HasKind(k: Kind): Matcher -> bool
  {
    (m: Matcher) => m.kind == k
  }

  /** The compiled entry a table kind's handler closes over. */
  function MatcherFor(r: Router, k: Kind): (m: Matcher)
    requires exists i :: 0 <= i < |r.matchers| && r.matchers[i].kind == k
    ensures m.kind == k
    ensures m in r.matchers
  {
    var i := Search.First(r.matchers, HasKind(k));
    assert i.Some? by {
      var j :| 0 <= j < |r.matchers| && r.matchers[j].kind == k;
      assert HasKind(k)(r.matchers[j]);
    }
    r.matchers[i.value]
  }

  /** With one matcher per kind, the handler for a kind is that kind's entry. */
  lemma MatcherForIndex(r: Router, i: nat)
    requires DistinctMatcherKinds(r.matchers)
    requires i < |r.matchers|
    ensures MatcherFor(r, r.matchers[i].kind) == r.matchers[i]
  {
  }
}

=== FILE: search.dfy ===
/** Left-to-right search over a sequence: the shape shared by the decoder's
    `for` loop over the matchers and the encoder's `forEach` over the keys,
    both of which stop at the first element that decides the outcome. */
module Search {
  import opened Wrappers

  /** The first index at or after `from` whose element satisfies `p`. */
  function FirstFrom<T>(s: seq<T>, p: T -> bool, from: nat): (r: Option<nat>)
    requires from <= |s|
    ensures r.Some? ==> from <= r.value < |s| && p(s[r.value])
    ensures r.Some? ==> forall j :: from <= j < r.value ==> !p(s[j])
    ensures r.None? <==> forall j :: from <= j < |s| ==> !p(s[j])
    decreases |s| - from
  {
    if from == |s| then None
    else if p(s[from]) then Some(from)
    else FirstFrom(s, p, from + 1)
  }

  /** The first index of `s` whose element satisfies `p`, if any. */
  function First<T>(s: seq<T>, p: T -> bool): (r: Option<nat>)
    ensures r.Some? ==> r.value < |s| && p(s[r.value])
    ensures r.Some? ==> forall j :: 0 <= j < r.value ==> !p(s[j])
    ensures r.None? <==> forall j :: 0 <= j < |s| ==> !p(s[j])
  {
    FirstFrom(s, p, 0)
  }

  /** The first index is unique: any index that satisfies `p` with no
      earlier index satisfying it is the one `First` returns. */
  lemma FirstIsUnique<T>(s: seq<T>, p: T -> bool, i: nat)
    requires i < |s| && p(s[i])
    requires forall j :: 0 <= j < i ==> !p(s[j])
    ensures First(s, p) == Some(i)
  {
  }
}

=== FILE: url.dfy ===
/** String handling of URLs: JavaScript's `split` on a one-character
    separator, the decoder's path/query split, and the encoder's `?query`
    suffix rule. */
module Url {

  /** The position of the first occurrence of `c` in `s`. */
  function IndexOf(s: string, c: char): (i: nat)
    requires c in s
    ensures i < |s| && s[i] == c
    ensures c !in s[..i]
  {
    if s[0] == c then 0
    else
      var j := IndexOf(s[1..], c);
      assert s[..j + 1] == [s[0]] + s[1..][..j];
      j + 1
  }

  /** JavaScript's `split` for a one-character separator: the pieces between
      consecutive occurrences of `sep`, always at least one piece. */
  function Split(s: string, sep: char): (parts: seq<string>)
    ensures |parts| >= 1
    ensures forall k :: 0 <= k < |parts| ==> sep !in parts[k]
    decreases |s|
  {
    if sep !in s then [s]
    else
      var i := IndexOf(s, sep);
      [s[..i]] + Split(s[i + 1..], sep)
  }

  /** JavaScript's `join`: the reference inverse of `Split`. */
  function Join(parts: seq<string>, sep: char): string
    decreases |parts|
  {
    if |parts| == 0 then ""
    else if |parts| == 1 then parts[0]
    else parts[0] + [sep] + Join(parts[1..], sep)
  }

  /** Splitting loses nothing: joining the pieces back gives the input. */
  lemma {:induction false} JoinSplit(s: string, sep: char)
    ensures Join(Split(s, sep), sep) == s
    decreases |s|
  {
    if sep in s {
      var i := IndexOf(s, sep);
      var rest := Split(s[i + 1..], sep);
      JoinSplit(s[i + 1..], sep);
      assert Split(s, sep) == [s[..i]] + rest;
      assert ([s[..i]] + rest)[1..] == rest;
      assert s == s[..i] + [sep] + s[i + 1..];
    }
  }

  /** Splitting a string that contains no separator gives the string alone. */
  lemma SplitNoSeparator(s: string, sep: char)
    requires sep !in s
    ensures Split(s, sep) == [s]
  {
  }

  /** `IndexOf` finds the first occurrence and no other. */
  lemma IndexOfIsFirst(s: string, c: char, i: nat)
    requires i < |s| && s[i] == c && c !in s[..i]
    ensures IndexOf(s, c) == i
  {
  }

  /** The first two pieces of a split: the text before the first separator,
      and the text between the first and the second (or the end). */
  lemma SplitFirstTwo(s: string, sep: char)
    ensures sep !in s ==> Split(s, sep) == [s]
    ensures sep in s ==>
      var i := IndexOf(s, sep);
      var t := s[i + 1..];
      && |Split(s, sep)| >= 2
      && Split(s, sep)[0] == s[..i]
      && Split(s, sep)[1] == (if sep in t then t[..IndexOf(t, sep)] else t)
  {
  }

  /** The decoder's split of a URL into its path, `parts[0]`, and its raw
      query, `parts[1] || ''`. */
  function SplitUrl(url: string): (pq: (string, string))
    ensures '?' !in pq.0 && '?' !in pq.1
    ensures '?' !in url ==> pq == (url, "")
    ensures '?' in url ==>
      var n := |pq.0|;
      var m := n + 1 + |pq.1|;
      && m <= |url|
      && url[..n] == pq.0
      && url[n] == '?'
      && url[n + 1..m] == pq.1
      && (m == |url| || url[m] == '?')
  {
    var parts := Split(url, '?');
    SplitFirstTwo(url, '?');
    (parts[0], if |parts| > 1 then parts[1] else "")
  }

  /** The path of a URL: the text before its first `?`. */
  function PathOf(url: string): string
  {
    SplitUrl(url).0
  }

  /** The raw query of a URL: the text between its first and second `?`. */
  function QueryOf(url: string): string
  {
    SplitUrl(url).1
  }

  /** The encoder's suffix rule: `?` and the query are appended only when
      the serialized query is non-empty. */
  function WithQuery(path: string, query: string): string
  {
    if |query| > 0 then path + "?" + query else path
  }

  /** `SplitUrl` inverts the suffix rule: the path and query that went into
      a URL are the ones read back out, when neither contains a `?`. */
  lemma SplitUrlWithQuery(path: string, query: string)
    requires '?' !in path && '?' !in query
    ensures SplitUrl(WithQuery(path, query)) == (path, query)
  {
    var url := WithQuery(path, query);
    if |query| > 0 {
      assert url[..|path|] == path;
      IndexOfIsFirst(url, '?', |path|);
      assert url[|path| + 1..] == query;
      SplitFirstTwo(url, '?');
    }
  }

  /** An empty query never leaves a trailing `?`: the URL is the bare path,
      and a non-empty query puts exactly one `?` between path and query. */
  lemma WithQueryShape(path: string, query: string)
    ensures |query| == 0 ==> WithQuery(path, query) == path
    ensures |query| > 0 ==> WithQuery(path, query)[..|path|] == path
    ensures |query| > 0 ==> WithQuery(path, query)[|path|] == '?'
    ensures |query| > 0 ==> WithQuery(path, query)[|path| + 1..] == query
  {
  }
}

=== FILE: wrappers.dfy ===
/** Optional values and error results: JavaScript's `undefined` and thrown errors. */
module Wrappers {

  /** A JavaScript value that may be `undefined` (None). */
  datatype Option<+T> = None | Some(value: T)

  /** A computation that either returns a value or throws an error. */
  datatype Result<+R, +E> = Success(value: R) | Failure(error: E)

  /** A check that either passes or throws an error, carrying no value. */
  datatype Outcome<+E> = Pass | Fail(error: E)
}
